=== FILE: README.md ===
# WebSBP front ends and WebAssembly Universe, modelled in Dafny

WebSBP runs summation-by-parts PDE solvers compiled to WebAssembly and draws
their fields with WebGL, one animation frame at a time. This project models
the logic around the solvers:

- **Shallow-water page** (`webfront/pages/shallowWater/main.js`). The model covers:
  - the grid-coordinate loop, the Int16 triangle index buffer and the bounding-box fold (module `ShallowMesh`);
  - the adaptive timestep controller with its first-frame rule, clamp and overrun counter;
  - the three-state field selector, the field view handed to WebGL and the click normalisation (module `ShallowWaterFrame`).
- **Maxwell page** (`main.js`). The model covers the timestep controller that tracks scaled wall time and clamps at 0.01. It also covers the ping-pong pair of solver objects, whose roles are exchanged after every step (module `MaxwellFrame`).
- **WebAssembly `Universe`** (`src/lib.rs`). It holds two `System` slots plus work buffers and a grid. `advance` steps from slot 0 into slot 1 and swaps the slots. `init` and the three pointer getters address slot 0 (module `WasmUniverse`).

Values are `real`. The numerical kernels are function-typed parameters:
- the time step;
- the Gaussian and "sin+cos" initial conditions;
- `Grid::new` and `System::new`;
- the shallow-water solver.

The pages are classes whose methods are the event handlers. A driver calls them in order.

Notes on how the model reads the code:

- **Warnings fire on every overrun.** `warnTime` starts at -1 and is only incremented, so the `!== -2` guard never suppresses a warning. `ShallowWaterFrame.FromStartUp` proves that from start-up every overrun frame warns. The Maxwell page has no latch at all. So every overrun frame warns on both pages, and the model follows the code.
- **The shallow-water `dt` is unused.** The paced `dt` never reaches the shallow-water solver, because `universe.advance()` takes no argument. `ShallowWaterPage.DrawMe` returns `dt` but its `advance` parameter has no timestep.
- **The drawn state is the one before the step.** Both pages take the field view from the state as it was before `advance` wrote the next one. On the Maxwell page that is `universes[0]` after the call, which is the source state, not the target.
- **Different API versions.** The Maxwell page calls an older version of the solver API than `src/lib.rs` defines:
  - the page calls `Universe.new(w, h)`, `advance(other, dt, wb)`, `get_ptr` and `set_initial`;
  - `src/lib.rs` defines `new(w, h, x, y)`, `advance(dt)` and `get_ex_ptr`.

  So the two are modelled separately. `MaxwellFrame.MaxwellUniverse` is the page's view of that older object. Both share `WasmUniverse.WorkBuffers` and the slot-exchange functions.
- **The page is generic over its grid size.** `ShallowWaterPage` takes the grid size as constructor arguments. The shipped page passes `WIDTH` = `HEIGHT` = 70, and 70·70 = 4900 ≤ 2^15, so `ShallowMesh.IndicesFitInt16` applies to it.
- **The u32 size check wraps.** `width * height` in `Universe::new` is u32 arithmetic as a release build evaluates it, reduced modulo 2^32. A debug build panics on this overflow instead, because Rust checks integer overflow there; `New` would then return `None` for every overflowing product instead of comparing against the wrapped one.

## Model

| member | source | states |
|---|---|---|
| ShallowMesh.RowMajor | webfront/pages/shallowWater/main.js:103-105 | sample (i, j) goes to n = width·j + i, inside the buffer, and n gives i and j back |
| ShallowMesh.RowMajorInverse | webfront/pages/shallowWater/main.js:103-105 | every n below width·height is the row-major slot of the in-range sample (n % width, n / width) |
| ShallowMesh.CoordinatesAtSample | webfront/pages/shallowWater/main.js:105-107 | the vertex at width·j + i has coordinates (i/(width-1), j/(height-1)) |
| ShallowMesh.CoordinatesInUnitSquare | webfront/pages/shallowWater/main.js:106-107 | every coordinate lies in [0, 1] × [0, 1] |
| ShallowMesh.CoordinateExtremes | webfront/pages/shallowWater/main.js:106-107 | vertex 0 is at (0, 0); vertex width-1 has x = 1; vertex width·(height-1) has y = 1 |
| ShallowMesh.GridCoordinates | webfront/pages/shallowWater/main.js:101-109 | both buffers have width·height entries; entry n holds x = column/(width-1) and y = row/(height-1) of vertex n |
| ShallowMesh.ToInt16 | webfront/pages/shallowWater/main.js:144 | an Int16Array store yields a value in [-2^15, 2^15) and keeps any value already in that range |
| ShallowMesh.AsUint16 | webfront/pages/shallowWater/main.js:233 | an UNSIGNED_SHORT read yields a value in [0, 2^16) |
| ShallowMesh.Int16StoreReadsBackUnsigned | webfront/pages/shallowWater/main.js:233-235 | an index below 2^16, stored as Int16 and read as UNSIGNED_SHORT, comes back unchanged |
| ShallowMesh.RowsIsProduct | webfront/pages/shallowWater/main.js:147 | counting row by row gives the row-major offset width·rows |
| ShallowMesh.CellCoversQuad | webfront/pages/shallowWater/main.js:148-153 | cell (i, j) emits triangles {(i,j),(i+1,j),(i,j+1)} and {(i+1,j),(i,j+1),(i+1,j+1)}, covering its four corners and sharing one diagonal |
| ShallowMesh.RowIndices | webfront/pages/shallowWater/main.js:146-154 | a row of c cells fills exactly 6·c slots |
| ShallowMesh.MeshLength | webfront/pages/shallowWater/main.js:144-145 | the first r rows of cells fill six slots per cell |
| ShallowMesh.IndexCountRows | webfront/pages/shallowWater/main.js:144 | the buffer length (width-1)·(height-1)·2·3 is six slots per cell |
| ShallowMesh.SlotOfCell | webfront/pages/shallowWater/main.js:147-153 | cell (i, j) occupies slots 6·((width-1)·j + i) + k for k < 6, all inside the buffer, and slot k holds the cell's k-th vertex |
| ShallowMesh.SlotsDisjoint | webfront/pages/shallowWater/main.js:147 | distinct cells write disjoint slots |
| ShallowMesh.CellOfSlot | webfront/pages/shallowWater/main.js:145-147 | every slot of the buffer belongs to some in-range cell, so every slot is written |
| ShallowMesh.CellInRange | webfront/pages/shallowWater/main.js:148-153 | every vertex index a cell emits is below width·height |
| ShallowMesh.MeshInRange | webfront/pages/shallowWater/main.js:144-155 | every slot of the full index buffer holds a valid vertex index |
| ShallowMesh.FillCell | webfront/pages/shallowWater/main.js:147-153 | the six stores of one cell extend the stored prefix by that cell's triangles and leave every later slot untouched |
| ShallowMesh.FillRow | webfront/pages/shallowWater/main.js:146-154 | the inner loop extends the stored prefix by the whole row of cells, left to right, and leaves every later slot untouched |
| ShallowMesh.Triangulate | webfront/pages/shallowWater/main.js:144-155 | the buffer has (width-1)·(height-1)·6 entries and equals the Int16 store of the cells' triangles in loop order |
| ShallowMesh.IndicesFitInt16 | webfront/pages/shallowWater/main.js:144-155 | with at most 2^15 vertices the Int16 store is lossless and every stored index is below width·height |
| ShallowMesh.MinWithStep | webfront/pages/shallowWater/main.js:162-165 | Math.min with the next sample extends a running minimum: from +Infinity to an attained lower bound |
| ShallowMesh.MaxWithStep | webfront/pages/shallowWater/main.js:162-166 | Math.max with the next sample extends a running maximum: from -Infinity to an attained upper bound |
| ShallowMesh.BoundingBox | webfront/pages/shallowWater/main.js:161-167 | bbox[0] ≤ x[k] ≤ bbox[1] and bbox[2] ≤ y[k] ≤ bbox[3] for every vertex, and each bound is attained by some vertex |
| ShallowMesh.LeastUnique | webfront/pages/shallowWater/main.js:162-167 | an attained lower bound is unique |
| ShallowMesh.GreatestUnique | webfront/pages/shallowWater/main.js:162-167 | an attained upper bound is unique |
| ShallowMesh.GridBoundingBox | webfront/pages/shallowWater/main.js:161-167 | for the generated grid the bounding box is exactly [0, 1, 0, 1] |
| ShallowMesh.UniformOf | webfront/pages/shallowWater/main.js:171 | for a non-degenerate box both scale factors 1/(max - min) are positive |
| ShallowMesh.UniformNormalises | webfront/pages/shallowWater/main.js:32-34 | the shader's (aX - uBbox.x)·uBbox.y and (aY - uBbox.z)·uBbox.w map every sample in the box into [0, 1], the box's lower edges to 0 and its upper edges to 1 |
| ShallowWaterFrame.MaxDt | webfront/pages/shallowWater/main.js:175 | MAX_DT = 1/max(width, height) is positive, at most 1/width and 1/height, and equal to one of them |
| ShallowWaterFrame.Pace | webfront/pages/shallowWater/main.js:205-218 | t becomes the draw time and firstDraw false; 0 < dt ≤ MAX_DT; the first or a non-advancing frame gets MAX_DT; an overrun gets MAX_DT and increments warnTime; any other frame gets its raw step; a warning is issued only on an overrun, and on every overrun while warnTime ≥ -1 |
| ShallowWaterFrame.Steps | webfront/pages/shallowWater/main.js:205-218 | a run yields one timestep per frame |
| ShallowWaterFrame.RunWarnTime | webfront/pages/shallowWater/main.js:211-212 | warnTime only grows, by exactly the number of overrun frames |
| ShallowWaterFrame.EveryOverrunWarns | webfront/pages/shallowWater/main.js:211-215 | from warnTime ≥ -1 the number of warnings equals the number of overruns |
| ShallowWaterFrame.FromStartUp | webfront/pages/shallowWater/main.js:211-215 | from start-up, warnTime = overruns - 1 ≥ -1 and every overrun warns |
| ShallowWaterFrame.RunSteps | webfront/pages/shallowWater/main.js:205-218 | every timestep of a run lies in (0, MAX_DT]; afterwards t is the last draw time and firstDraw is false |
| ShallowWaterFrame.StalledFrameWarns | webfront/pages/shallowWater/main.js:205-218 | draws at 16, 32 and 2032 ms give steps MAX_DT, 0.0016 and MAX_DT, with exactly one warning |
| ShallowWaterFrame.FieldForOneToOne | webfront/pages/shallowWater/main.js:220-227 | on the values 0, 1 and 2 the choice of field is one-to-one and onto: distinct values show distinct fields and every field is shown by exactly one value |
| ShallowWaterFrame.NextChoice | webfront/pages/shallowWater/main.js:184-190 | cycle maps 0 to 1, 1 to 2 and anything else to 0, so the value stays in {0, 1, 2} |
| ShallowWaterFrame.CyclePeriodic | webfront/pages/shallowWater/main.js:183-192 | three presses return any valid value to itself |
| ShallowWaterFrame.CycleShowsEveryField | webfront/pages/shallowWater/main.js:182-194 | within three presses every field is shown; the initial 2 becomes 0 (eta) after the setup call |
| ShallowWaterFrame.ChosenField.Cycle | webfront/pages/shallowWater/main.js:183-192 | the value becomes NextChoice of the old value |
| ShallowWaterFrame.View | webfront/pages/shallowWater/main.js:220-228 | the uploaded view spans exactly width·height values of the selected field |
| ShallowWaterFrame.ClickPoint | webfront/pages/shallowWater/main.js:259-261 | the click point scales back to the client coordinates with y flipped, and a click inside the window lands in the unit square |
| ShallowWaterFrame.GridSetup | webfront/pages/shallowWater/main.js:161-171 | the coordinate buffers as built, their bounding box [0, 1, 0, 1] and the uniform (0, 1, 0, 1) |
| ShallowWaterFrame.ShallowWaterPage.constructor | webfront/pages/shallowWater/main.js:97-196 | start-up builds the coordinates, index buffer, box and uniform, sets the clock to (0, true, -1), cycles the selector to 0 and seeds the solver at (0.5, 0.5) |
| ShallowWaterFrame.ShallowWaterPage.DrawMe | webfront/pages/shallowWater/main.js:202-241 | the clock moves as Pace says; the view is the selected field before the step; all indices are drawn; the solver advances without the paced dt |
| ShallowWaterFrame.ShallowWaterPage.KeyUp | webfront/pages/shallowWater/main.js:251-255 | "c" cycles the selector; any other key leaves it alone |
| ShallowWaterFrame.ShallowWaterPage.Click | webfront/pages/shallowWater/main.js:257-262 | the solver is reseeded at ClickPoint; the clock and the selector are unchanged |
| MaxwellFrame.ClockStep | main.js:125-132 | afterwards t = t_draw·TIMEFACTOR; dt ≤ 0.01; it warns exactly when the gap reaches 0.01, and then dt = 0.01; otherwise dt is the gap, however negative |
| MaxwellFrame.Dropped | main.js:125-129 | clamping only ever drops time |
| MaxwellFrame.Telescoping | main.js:125-132 | over any run, simulated time plus dropped time equals the elapsed scaled wall time, and t ends at the last scaled draw time |
| MaxwellFrame.NoClampNoDrift | main.js:125-132 | a run without clamping hands the solver exactly the elapsed scaled wall time |
| MaxwellFrame.MaxwellUniverse.SetInitial | main.js:120 | the field becomes the initial condition at time t |
| MaxwellFrame.MaxwellUniverse.AdvanceInto | main.js:133 | the target receives the step of this state; this state is only read |
| MaxwellFrame.MaxwellPage.constructor | main.js:113-120 | two distinct solver objects are created, t = now·TIMEFACTOR, and only universes[0] receives the initial condition |
| MaxwellFrame.MaxwellPage.DrawMe | main.js:122-155 | the clock moves as ClockStep says; universes[0] is stepped into universes[1]; the view is 2000 values of the state stepped from; the two objects exchange roles without copying, and the exchange count grows by one |
| WasmUniverse.MulWrapping | src/lib.rs:30-31 | the u32 product is exact when it fits in 32 bits, and otherwise differs from the true product by a multiple of 2^32 |
| WasmUniverse.SizesAcceptedExactly | src/lib.rs:30-31 | without overflow, new accepts exactly width·height samples per coordinate buffer |
| WasmUniverse.OverflowingSizesWrap | src/lib.rs:30-31 | with overflow the check compares against the wrapped product (65536 × 65536 accepts empty buffers) |
| WasmUniverse.SwapInvolution | src/lib.rs:55 | exchanging twice restores the pair, and an exchange changes the pair exactly when the two slots hold different objects |
| WasmUniverse.SwappedParity | src/lib.rs:55 | after an even number of exchanges the slots are in their original order, after an odd number they are reversed |
| WasmUniverse.Universe.New | src/lib.rs:29-41 | new succeeds exactly when both lengths match the u32 product and the grid builds; it then creates two distinct same-size states, one work-buffer set and the grid |
| WasmUniverse.Universe.Init | src/lib.rs:43-45 | only slot 0 is reseeded; slot 1, the grid and the work buffers are untouched |
| WasmUniverse.Universe.Advance | src/lib.rs:47-56 | the step from slot 0 is written into slot 1 and the slots swap; slot 0 then holds the new state and slot 1 the previous one, and the grid is unchanged |
| WasmUniverse.Universe.GetExPtr | src/lib.rs:58-60 | the returned pointer is field ex of slot 0, never slot 1, and it reads that field's samples |
| WasmUniverse.Universe.GetEyPtr | src/lib.rs:62-64 | the returned pointer is field ey of slot 0, never slot 1, and it reads that field's samples |
| WasmUniverse.Universe.GetHzPtr | src/lib.rs:66-68 | the returned pointer is field hz of slot 0, never slot 1, and it reads that field's samples |

## Left out

- WebGL work is not modelled. This covers shader sources and compilation, buffer, texture and uniform setup, `bufferData`, `texImage2D`, the draw calls and clear state. The draw calls appear only as the element count (`ShallowWaterPage.DrawMe`) and the uploaded view. Two exceptions are modelled: the uBbox values passed at line 171 of `webfront/pages/shallowWater/main.js` (`ShallowMesh.UniformOf`) and the vertex shader's normalisation at lines 32-33 (`ShallowMesh.UniformNormalises`).
- DOM and host plumbing is not modelled: `resizeCanvas`, `addEventListener`, `requestAnimationFrame`, `performance.now()` and the window size. Draw times, the start time and the window size are parameters.
- The WebAssembly bootstrap is not modelled: `init`, the panic hook, the console logger, `wee_alloc` and the raw pointer arithmetic over `wasm.memory.buffer`. A field view is the sequence of `width*height` values of the selected field. A pointer is the state object plus a field name.
- The numerical solvers and their constructors are function-typed parameters about which only lengths are assumed:
  - `System::advance`, `set_gaussian`, `Grid::new`, `System::new`;
  - `ShallowWaterUniverse` and its `advance`;
  - `Universe.set_initial` with "sin+cos".
- IEEE single and double rounding of coordinates, `dt` and the scale factors are not modelled; values are exact reals. JavaScript's `Infinity` appears only as the initial bounding-box entries.
- A zero-size window in the click handler and a degenerate bounding box (division by zero, giving Infinity or NaN in JavaScript) are not modelled. `ClickPoint` and `UniformOf` require positive denominators.
- The work buffers' scratch contents are not modelled. `advance` may overwrite them, and no modelled state depends on them.
- `sbp/tests/convergence.rs` is numerics with no discrete contract and is not part of this model.
- ShallowWaterFrame.ShallowWaterPage.DrawMe: the view is a value copied from the state, so the model does not capture that a JavaScript view aliases solver memory and goes stale on `advance`.
- MaxwellFrame.MaxwellPage.DrawMe: the same holds for the view of `universes[0]`.
- ShallowWaterFrame.ShallowWaterPage.constructor: the grid size is a parameter rather than the literal 70 × 70, and `ShallowWaterUniverse(height, width)` is represented by the blank state passed in.

=== FILE: maxwell_frame.dfy ===
/** Per-frame logic of the Maxwell page: a timestep controller that keeps
    simulated time in step with wall time and clamps large steps, and a
    ping-pong pair of solver objects whose roles are exchanged after every
    step. */
module MaxwellFrame {
  import WasmUniverse

  /** Grid dimensions of the page, and the texture's. */
  const WIDTH: nat := 40
  const HEIGHT: nat := 50

  /** Units of simulated time per millisecond of wall time. */
  const TIMEFACTOR: real := 1.0 / 7000.0

  /** Largest timestep handed to the solver. */
  const CLAMP: real := 0.01

  // ---------------------------------------------------------------------
  // Timestep controller
  // ---------------------------------------------------------------------

  /** One frame's decision: the timestep, whether the frame warns that it
      cannot keep up, and the simulated time afterwards. */
  datatype Step = Step(dt: real, warned: bool, t: real)

  /** The timestep is the gap between scaled wall time and simulated time.
      A gap of CLAMP or more is clamped and the lost time is dropped; any
      smaller gap, negative ones included, is taken as it is. Either way
      simulated time ends equal to scaled wall time. */
  function ClockStep(t: real, tDraw: real): (s: Step)
    ensures s.t == tDraw * TIMEFACTOR
    ensures s.dt <= CLAMP
    ensures s.warned <==> tDraw * TIMEFACTOR - t >= CLAMP
    ensures s.warned ==> s.dt == CLAMP
    ensures !s.warned ==> s.dt == tDraw * TIMEFACTOR - t
  {
    var dt := tDraw * TIMEFACTOR - t;
    if dt >= CLAMP then Step(CLAMP, true, tDraw * TIMEFACTOR) else Step(dt, false, t + dt)
  }

  /** Simulated time after frames drawn at the given times. */
  function ClockRun(t: real, draws: seq<real>): real
    decreases |draws|
  {
    if draws == [] then t else ClockRun(ClockStep(t, draws[0]).t, draws[1..])
  }

  /** Total simulated time handed to the solver over those frames. */
  function DtSum(t: real, draws: seq<real>): real
    decreases |draws|
  {
    if draws == [] then 0.0
    else ClockStep(t, draws[0]).dt + DtSum(ClockStep(t, draws[0]).t, draws[1..])
  }

  /** Total time dropped by clamping over those frames. */
  function Dropped(t: real, draws: seq<real>): (d: real)
    ensures d >= 0.0
    decreases |draws|
  {
    if draws == [] then 0.0
    else
      var s := ClockStep(t, draws[0]);
      (if s.warned then draws[0] * TIMEFACTOR - t - CLAMP else 0.0) + Dropped(s.t, draws[1..])
  }

  /** The time actually simulated plus the time dropped by clamping is
      exactly the scaled wall time elapsed since the start; after a
      non-empty run simulated time equals the last scaled draw time. */
  lemma {:induction false} Telescoping(t: real, draws: seq<real>)
    requires draws != []
    ensures ClockRun(t, draws) == draws[|draws| - 1] * TIMEFACTOR
    ensures DtSum(t, draws) + Dropped(t, draws) == draws[|draws| - 1] * TIMEFACTOR - t
    decreases |draws|
  {
    var s := ClockStep(t, draws[0]);
    if |draws| == 1 {
      assert draws[1..] == [];
    } else {
      Telescoping(s.t, draws[1..]);
      assert draws[1..][|draws[1..]| - 1] == draws[|draws| - 1];
    }
  }

  /** Without a clamped frame nothing is dropped: the solver is handed
      exactly the scaled wall time elapsed. */
  lemma NoClampNoDrift(t: real, draws: seq<real>)
    requires draws != [] && Dropped(t, draws) == 0.0
    ensures DtSum(t, draws) == draws[|draws| - 1] * TIMEFACTOR - t
  {
    Telescoping(t, draws);
  }

  // ---------------------------------------------------------------------
  // Ping-pong pair
  // ---------------------------------------------------------------------

  /** The page's solver object: the field it exposes for drawing, and a
      step that writes the next state into another such object. */
  class MaxwellUniverse {
    var field: seq<real>

    constructor (field: seq<real>)
      ensures this.field == field
    {
      this.field := field;
    }

    /** set_initial: the named initial condition evaluated at time t. */
    method SetInitial(t: real, initial: real -> seq<real>)
      modifies this
      ensures field == initial(t)
    {
      field := initial(t);
    }

    /** advance: one step of length dt from this state into target; this
        state is only read. */
    method AdvanceInto(target: MaxwellUniverse, dt: real, workbuffer: WasmUniverse.WorkBuffers,
                       step: (seq<real>, real) -> seq<real>)
      requires target != this
      modifies target
      ensures target.field == step(field, dt)
    {
      target.field := step(field, dt);
    }
  }

  /** The page: the pair of solver objects, the shared work buffers and
      simulated time. */
  class MaxwellPage {
    var universes: seq<MaxwellUniverse>
    const workbuffer: WasmUniverse.WorkBuffers
    var t: real
    /** The two solver objects as created, and how many frames have
        exchanged them since. */
    ghost const first: MaxwellUniverse
    ghost const second: MaxwellUniverse
    ghost var frames: nat

    ghost predicate Valid()
      reads this, first, second
    {
      first != second && |universes| == 2 &&
      universes[0] != universes[1] && {universes[0], universes[1]} == {first, second} &&
      (universes[0], universes[1]) == WasmUniverse.SwappedN((first, second), frames) &&
      |first.field| == WIDTH * HEIGHT && |second.field| == WIDTH * HEIGHT
    }

    /** Start-up: two solver objects, one set of work buffers, simulated
        time from the wall clock, and the initial condition written into
        universes[0] only. */
    constructor (now: real, blank: seq<real>, initial: real -> seq<real>)
      requires |blank| == WIDTH * HEIGHT
      requires forall s: real {:trigger initial(s)} :: |initial(s)| == WIDTH * HEIGHT
      ensures Valid() && frames == 0
      ensures t == now * TIMEFACTOR
      ensures universes[0].field == initial(now * TIMEFACTOR)
      ensures universes[1].field == blank
      ensures workbuffer.width == WIDTH && workbuffer.height == HEIGHT
      ensures fresh(universes[0]) && fresh(universes[1])
    {
      var u0 := new MaxwellUniverse(blank);
      var u1 := new MaxwellUniverse(blank);
      workbuffer := new WasmUniverse.WorkBuffers(WIDTH, HEIGHT);
      var t0 := now * TIMEFACTOR;
      t := t0;
      u0.SetInitial(t0, initial);
      universes := [u0, u1];
      first, second := u0, u1;
      frames := 0;
    }

    /** One frame: pace, step universes[0] into universes[1], upload the
        field of universes[0] as a width by height texture, exchange the
        two. No field data is copied, and the state drawn is the one the
        frame stepped from. */
    method DrawMe(tDraw: real, step: (seq<real>, real) -> seq<real>)
      returns (dt: real, warned: bool, view: seq<real>)
      requires Valid()
      requires forall f: seq<real>, d: real {:trigger step(f, d)} :: |f| == WIDTH * HEIGHT ==> |step(f, d)| == WIDTH * HEIGHT
      modifies this, universes[1]
      ensures Valid() && frames == old(frames) + 1
      ensures Step(dt, warned, t) == ClockStep(old(t), tDraw)
      ensures universes == [old(universes[1]), old(universes[0])]
      ensures universes[0].field == step(old(universes[0].field), dt)
      ensures universes[1].field == old(universes[0].field)
      ensures view == old(universes[0].field) && |view| == WIDTH * HEIGHT
    {
      dt := tDraw * TIMEFACTOR - t;
      if dt >= CLAMP {
        warned := true;
        t := tDraw * TIMEFACTOR;
        dt := CLAMP;
      } else {
        warned := false;
        t := t + dt;
      }
      universes[0].AdvanceInto(universes[1], dt, workbuffer, step);
      view := universes[0].field[..WIDTH * HEIGHT];
      universes := [universes[1], universes[0]];
      frames := frames + 1;
    }
  }
}

=== FILE: shallow_frame.dfy ===
/** Per-frame logic of the shallow-water page: the adaptive timestep
    controller with its first-frame rule, clamp and overrun counter, the
    three-state display selector, the choice of which field is uploaded,
    and the click handler that reseeds the simulation. The page object ties
    these to the mesh built once at start-up. */
module ShallowWaterFrame {
  import ShallowMesh

  /** Grid dimensions of the page. */
  const WIDTH: nat := 70
  const HEIGHT: nat := 70

  /** Milliseconds of wall time per unit of simulated time. */
  const TIMEFACTOR: real := 10000.0

  /** Largest timestep handed to a frame: 1/max(width, height), no more
      than the grid spacing in either direction. */
  function MaxDt(width: nat, height: nat): (r: real)
    requires width >= 1 && height >= 1
    ensures r > 0.0
    ensures r * width as real <= 1.0 && r * height as real <= 1.0
    ensures r * width as real == 1.0 || r * height as real == 1.0
  {
    var m := if width >= height then width else height;
    var r := 1.0 / m as real;
    assert r * m as real == 1.0;
    assert r * width as real <= r * m as real && r * height as real <= r * m as real;
    r
  }

  const MAX_DT: real := MaxDt(WIDTH, HEIGHT)

  // ---------------------------------------------------------------------
  // Timestep controller
  // ---------------------------------------------------------------------

  /** The three closure variables drawMe paces frames with. */
  datatype Clock = Clock(t: real, firstDraw: bool, warnTime: int)

  /** Their values before the first frame. */
  const INITIAL_CLOCK: Clock := Clock(0.0, true, -1)

  /** What one frame's pacing decides: the timestep, whether the frame
      warns that it cannot keep up, and the clock afterwards. */
  datatype Pacing = Pacing(dt: real, warned: bool, next: Clock)

  /** The unclamped timestep: wall time since the last frame, scaled. */
  function RawDt(c: Clock, timeOfDraw: real): real
  {
    (timeOfDraw - c.t) / TIMEFACTOR
  }

  /** A frame overruns when it is not the first and its raw timestep
      reaches the clamp. */
  predicate Overrun(c: Clock, timeOfDraw: real, maxDt: real)
  {
    !c.firstDraw && RawDt(c, timeOfDraw) >= maxDt
  }

  /** One frame of the controller with clamp maxDt. The first frame, and
      any frame whose clock did not advance, runs with maxDt; a frame at or
      past the clamp runs with maxDt and counts an overrun; any other frame
      runs with its raw timestep. The warning is guarded by
      warnTime + 1 != -2. */
  function Pace(c: Clock, timeOfDraw: real, maxDt: real): (p: Pacing)
    requires maxDt > 0.0
    ensures p.next.t == timeOfDraw && !p.next.firstDraw
    ensures 0.0 < p.dt <= maxDt
    ensures c.firstDraw ==> p.dt == maxDt
    ensures !c.firstDraw && 0.0 < RawDt(c, timeOfDraw) < maxDt ==> p.dt == RawDt(c, timeOfDraw)
    ensures p.dt == maxDt <==> c.firstDraw || RawDt(c, timeOfDraw) <= 0.0 || RawDt(c, timeOfDraw) >= maxDt
    ensures p.next.warnTime == if Overrun(c, timeOfDraw, maxDt) then c.warnTime + 1 else c.warnTime
    ensures p.warned ==> Overrun(c, timeOfDraw, maxDt)
    ensures c.warnTime >= -1 ==> (p.warned <==> Overrun(c, timeOfDraw, maxDt))
  {
    var dt := RawDt(c, timeOfDraw);
    if c.firstDraw || dt <= 0.0 then
      Pacing(maxDt, false, Clock(timeOfDraw, false, c.warnTime))
    else if dt >= maxDt then
      var warnTime := c.warnTime + 1;
      Pacing(maxDt, warnTime != -2, Clock(timeOfDraw, c.firstDraw, warnTime))
    else
      Pacing(dt, false, Clock(timeOfDraw, c.firstDraw, c.warnTime))
  }

  /** The clock after pacing frames drawn at the given times. */
  function Run(c: Clock, times: seq<real>, maxDt: real): Clock
    requires maxDt > 0.0
    decreases |times|
  {
    if times == [] then c else Run(Pace(c, times[0], maxDt).next, times[1..], maxDt)
  }

  /** How many of those frames overrun. */
  function Overruns(c: Clock, times: seq<real>, maxDt: real): nat
    requires maxDt > 0.0
    decreases |times|
  {
    if times == [] then 0
    else (if Overrun(c, times[0], maxDt) then 1 else 0) + Overruns(Pace(c, times[0], maxDt).next, times[1..], maxDt)
  }

  /** How many of those frames warn. */
  function Warnings(c: Clock, times: seq<real>, maxDt: real): nat
    requires maxDt > 0.0
    decreases |times|
  {
    if times == [] then 0
    else (if Pace(c, times[0], maxDt).warned then 1 else 0) + Warnings(Pace(c, times[0], maxDt).next, times[1..], maxDt)
  }

  /** The timesteps of those frames. */
  function Steps(c: Clock, times: seq<real>, maxDt: real): (dts: seq<real>)
    requires maxDt > 0.0
    ensures |dts| == |times|
    decreases |times|
  {
    if times == [] then [] else [Pace(c, times[0], maxDt).dt] + Steps(Pace(c, times[0], maxDt).next, times[1..], maxDt)
  }

  /** warnTime only counts: after any run it has grown by exactly the
      number of overrun frames. */
  lemma {:induction false} RunWarnTime(c: Clock, times: seq<real>, maxDt: real)
    requires maxDt > 0.0
    ensures Run(c, times, maxDt).warnTime == c.warnTime + Overruns(c, times, maxDt)
    decreases |times|
  {
    if times != [] {
      RunWarnTime(Pace(c, times[0], maxDt).next, times[1..], maxDt);
    }
  }

  /** From a counter at -1 or above, the guard never suppresses anything:
      every overrun frame warns, and no other frame does. */
  lemma {:induction false} EveryOverrunWarns(c: Clock, times: seq<real>, maxDt: real)
    requires maxDt > 0.0 && c.warnTime >= -1
    ensures Warnings(c, times, maxDt) == Overruns(c, times, maxDt)
    decreases |times|
  {
    if times != [] {
      EveryOverrunWarns(Pace(c, times[0], maxDt).next, times[1..], maxDt);
    }
  }

  /** From start-up, warnTime is the number of overruns so far minus one;
      it never drops below -1, so every overrun warns. */
  lemma FromStartUp(times: seq<real>, maxDt: real)
    requires maxDt > 0.0
    ensures Run(INITIAL_CLOCK, times, maxDt).warnTime == Overruns(INITIAL_CLOCK, times, maxDt) - 1
    ensures Run(INITIAL_CLOCK, times, maxDt).warnTime >= -1
    ensures Warnings(INITIAL_CLOCK, times, maxDt) == Overruns(INITIAL_CLOCK, times, maxDt)
  {
    RunWarnTime(INITIAL_CLOCK, times, maxDt);
    EveryOverrunWarns(INITIAL_CLOCK, times, maxDt);
  }

  /** Every timestep of a run is positive and at most the clamp, and after
      a non-empty run the clock holds the last draw time and is past its
      first frame. */
  lemma {:induction false} RunSteps(c: Clock, times: seq<real>, maxDt: real)
    requires maxDt > 0.0
    ensures forall k :: 0 <= k < |times| ==> 0.0 < Steps(c, times, maxDt)[k] <= maxDt
    ensures times != [] ==> Run(c, times, maxDt).t == times[|times| - 1] && !Run(c, times, maxDt).firstDraw
    decreases |times|
  {
    if times != [] {
      var next := Pace(c, times[0], maxDt).next;
      RunSteps(next, times[1..], maxDt);
      assert Steps(c, times, maxDt) == [Pace(c, times[0], maxDt).dt] + Steps(next, times[1..], maxDt);
      if |times| == 1 {
        assert Run(next, times[1..], maxDt) == next;
      }
    }
  }

  /** A stalled tab on the 70 by 70 page: the first frame at 16 ms runs
      with MAX_DT, a frame 16 ms later with its raw step, and a frame two
      seconds later is clamped and warns. */
  lemma StalledFrameWarns()
    ensures MAX_DT == 1.0 / 70.0
    ensures Steps(INITIAL_CLOCK, [16.0, 32.0, 2032.0], MAX_DT) == [MAX_DT, 0.0016, MAX_DT]
    ensures Warnings(INITIAL_CLOCK, [16.0, 32.0, 2032.0], MAX_DT) == 1
    ensures Run(INITIAL_CLOCK, [16.0, 32.0, 2032.0], MAX_DT) == Clock(2032.0, false, 0)
  {
    var c1 := Pace(INITIAL_CLOCK, 16.0, MAX_DT).next;
    assert c1 == Clock(16.0, false, -1);
    var c2 := Pace(c1, 32.0, MAX_DT).next;
    assert RawDt(c1, 32.0) == 0.0016;
    assert c2 == Clock(32.0, false, -1);
    assert RawDt(c2, 2032.0) == 0.2;
    assert [16.0, 32.0, 2032.0][1..] == [32.0, 2032.0];
    assert [32.0, 2032.0][1..] == [2032.0];
  }

  // ---------------------------------------------------------------------
  // Display selector
  // ---------------------------------------------------------------------

  /** The three fields the page can show. */
  datatype FieldName = Eta | EtaU | EtaV

  /** drawMe's choice of field pointer: 0 shows eta, 1 shows etau and any
      other value shows etav. */
  function FieldFor(value: int): (f: FieldName)
    ensures f == Eta <==> value == 0
    ensures f == EtaU <==> value == 1
    ensures f == EtaV <==> value != 0 && value != 1
  {
    if value == 0 then Eta else if value == 1 then EtaU else EtaV
  }

  /** On the values the selector holds the choice is one-to-one onto the
      three fields: distinct values show distinct fields, and every field
      is shown by exactly one value in {0, 1, 2}. */
  lemma {:induction false} FieldForOneToOne(a: int, b: int, f: FieldName)
    requires 0 <= a <= 2 && 0 <= b <= 2
    ensures FieldFor(a) == FieldFor(b) <==> a == b
    ensures exists v :: 0 <= v <= 2 && FieldFor(v) == f
    ensures FieldFor(a) == f && FieldFor(b) == f ==> a == b
  {
    var v := match f case Eta => 0 case EtaU => 1 case EtaV => 2;
    assert FieldFor(v) == f;
  }

  /** cycle: 0 goes to 1, 1 to 2, and anything else to 0. */
  function NextChoice(value: int): (r: int)
    ensures 0 <= r <= 2
    ensures 0 <= value < 2 ==> r == value + 1
    ensures !(0 <= value < 2) ==> r == 0
  {
    if value == 0 then 1 else if value == 1 then 2 else 0
  }

  /** The value after n presses of "c". */
  function CycleN(value: int, n: nat): int
  {
    if n == 0 then value else NextChoice(CycleN(value, n - 1))
  }

  /** Three presses return any valid value to itself, so the selector is
      periodic with period three. */
  lemma {:induction false} CyclePeriodic(value: int, n: nat)
    requires 0 <= value <= 2
    ensures CycleN(value, n + 3) == CycleN(value, n)
  {
    if n == 0 {
      assert CycleN(value, 3) == NextChoice(NextChoice(NextChoice(value)));
    } else {
      CyclePeriodic(value, n - 1);
    }
  }

  /** Within three presses every field is shown, starting from any value
      the selector can hold; the start-up value 2 shows etav before setup
      and eta after it. */
  lemma CycleShowsEveryField(value: int, f: FieldName)
    requires 0 <= value <= 2
    ensures exists n :: 0 <= n < 3 && FieldFor(CycleN(value, n)) == f
    ensures FieldFor(2) == EtaV && NextChoice(2) == 0 && FieldFor(NextChoice(2)) == Eta
  {
    var target := match f case Eta => 0 case EtaU => 1 case EtaV => 2;
    var n := (target - value + 3) % 3;
    assert CycleN(value, 1) == NextChoice(value);
    assert CycleN(value, 2) == NextChoice(NextChoice(value));
    assert FieldFor(CycleN(value, n)) == f;
  }

  /** chosenField: the selector object, whose cycle method steps value. */
  class ChosenField {
    var value: int

    constructor ()
      ensures value == 2
    {
      value := 2;
    }

    method Cycle()
      modifies this
      ensures value == NextChoice(old(value))
    {
      if value == 0 {
        value := 1;
      } else if value == 1 {
        value := 2;
      } else {
        value := 0;
      }
    }
  }

  // ---------------------------------------------------------------------
  // Simulation state and the page
  // ---------------------------------------------------------------------

  /** The solver's three fields, each one value per grid vertex. */
  datatype SwFields = SwFields(eta: seq<real>, etau: seq<real>, etav: seq<real>)

  /** Every field has one value per vertex of an n-vertex grid. */
  predicate Shaped(u: SwFields, n: nat)
  {
    |u.eta| == n && |u.etau| == n && |u.etav| == n
  }

  function FieldOf(u: SwFields, f: FieldName): seq<real>
  {
    match f
    case Eta => u.eta
    case EtaU => u.etau
    case EtaV => u.etav
  }

  /** The Float32Array view uploaded for drawing: n values starting at the
      chosen field's pointer. */
  function View(u: SwFields, value: int, n: nat): (v: seq<real>)
    requires Shaped(u, n)
    ensures |v| == n
    ensures value == 0 ==> v == u.eta
    ensures value == 1 ==> v == u.etau
    ensures value != 0 && value != 1 ==> v == u.etav
  {
    FieldOf(u, FieldFor(value))[..n]
  }

  /** A point of the unit square, y pointing up. */
  datatype Point = Point(x: real, y: real)

  /** The click handler's normalisation: client coordinates scaled by the
      window size, with the y axis flipped. It is undone by scaling back,
      and a click inside the window lands in the unit square. */
  function ClickPoint(clientX: real, clientY: real, innerWidth: real, innerHeight: real): (p: Point)
    requires innerWidth > 0.0 && innerHeight > 0.0
    ensures p.x * innerWidth == clientX
    ensures (1.0 - p.y) * innerHeight == clientY
    ensures 0.0 <= clientX <= innerWidth ==> 0.0 <= p.x <= 1.0
    ensures 0.0 <= clientY <= innerHeight ==> 0.0 <= p.y <= 1.0
  {
    var mousex := clientX / innerWidth;
    var mousey := clientY / innerHeight;
    assert mousex * innerWidth == clientX && mousey * innerHeight == clientY;
    assert 0.0 <= clientX <= innerWidth ==> 0.0 <= mousex <= 1.0 by {
      if 0.0 <= clientX <= innerWidth { ShallowMesh.RatioInUnit(clientX, innerWidth); }
    }
    assert 0.0 <= clientY <= innerHeight ==> 0.0 <= mousey <= 1.0 by {
      if 0.0 <= clientY <= innerHeight { ShallowMesh.RatioInUnit(clientY, innerHeight); }
    }
    Point(mousex, 1.0 - mousey)
  }

  /** The start-up geometry: vertex coordinates, their bounding box and
      the uniform derived from it, which for the generated grid is the
      unit square with scale 1 on both axes. */
  method GridSetup(width: nat, height: nat)
    returns (x: seq<real>, y: seq<real>, bbox: seq<ShallowMesh.Bound>, uBbox: ShallowMesh.BboxUniform)
    requires width >= 2 && height >= 2
    ensures |x| == |y| == ShallowMesh.VertexCount(width, height)
    ensures forall n :: 0 <= n < |x| ==> x[n] == ShallowMesh.XOf(width, n) && y[n] == ShallowMesh.YOf(width, height, n)
    ensures ShallowMesh.IsBoundingBox(bbox, x, y, ShallowMesh.VertexCount(width, height))
    ensures bbox == [ShallowMesh.Finite(0.0), ShallowMesh.Finite(1.0), ShallowMesh.Finite(0.0), ShallowMesh.Finite(1.0)]
    ensures uBbox == ShallowMesh.BboxUniform(0.0, 1.0, 0.0, 1.0)
  {
    var xs, ys := ShallowMesh.GridCoordinates(width, height);
    var box := ShallowMesh.BoundingBox(width, height, xs, ys);
    x, y, bbox := xs[..], ys[..], box[..];
    ShallowMesh.GridBoundingBox(width, height, x, y, bbox);
    uBbox := ShallowMesh.UniformOf(bbox);
  }

  /** The page: the mesh built at start-up, the pacing clock, the display
      selector and the solver state. The page is written for a width by
      height grid; the shipped page uses WIDTH by HEIGHT. */
  class ShallowWaterPage {
    const width: nat
    const height: nat
    const maxDt: real
    const x: seq<real>
    const y: seq<real>
    const positions: seq<int>
    const bbox: seq<ShallowMesh.Bound>
    const uBbox: ShallowMesh.BboxUniform
    const chosenField: ChosenField
    var t: real
    var firstDraw: bool
    var warnTime: int
    var universe: SwFields

    function ClockOf(): Clock
      reads this
    {
      Clock(t, firstDraw, warnTime)
    }

    ghost predicate Valid()
      reads this, chosenField
    {
      maxDt > 0.0 && Shaped(universe, ShallowMesh.VertexCount(width, height)) &&
      0 <= chosenField.value <= 2 && warnTime >= -1
    }

    /** Start-up: coordinates, solver, index buffer, bounding box and its
        uniform, the clock, the selector (cycled once) and the initial bump
        at the centre. */
    constructor (width: nat, height: nat, blank: SwFields, seedAt: (SwFields, real, real) -> SwFields)
      requires width >= 2 && height >= 2
      requires Shaped(blank, ShallowMesh.VertexCount(width, height))
      requires forall u: SwFields, x0: real, y0: real {:trigger seedAt(u, x0, y0)} ::
        Shaped(u, ShallowMesh.VertexCount(width, height)) ==> Shaped(seedAt(u, x0, y0), ShallowMesh.VertexCount(width, height))
      ensures Valid()
      ensures this.width == width && this.height == height && maxDt == MaxDt(width, height)
      ensures |x| == |y| == ShallowMesh.VertexCount(width, height)
      ensures forall n :: 0 <= n < |x| ==> x[n] == ShallowMesh.XOf(width, n) && y[n] == ShallowMesh.YOf(width, height, n)
      ensures |positions| == ShallowMesh.IndexCount(width, height)
      ensures positions == ShallowMesh.Int16Seq(ShallowMesh.MeshIndices(width, height - 1))
      ensures bbox == [ShallowMesh.Finite(0.0), ShallowMesh.Finite(1.0), ShallowMesh.Finite(0.0), ShallowMesh.Finite(1.0)]
      ensures uBbox == ShallowMesh.BboxUniform(0.0, 1.0, 0.0, 1.0)
      ensures ClockOf() == INITIAL_CLOCK
      ensures chosenField.value == 0
      ensures universe == seedAt(blank, 0.5, 0.5)
    {
      this.width, this.height := width, height;
      var xs, ys, box, uniform := GridSetup(width, height);
      x, y, bbox, uBbox := xs, ys, box, uniform;
      var ps := ShallowMesh.Triangulate(width, height);
      positions := ps[..];
      maxDt := MaxDt(width, height);
      t, firstDraw, warnTime := 0.0, true, -1;
      var selector := new ChosenField();
      selector.Cycle();
      chosenField := selector;
      universe := seedAt(blank, 0.5, 0.5);
    }

    /** One animation frame: pace, upload the chosen field, draw every
        index, advance the solver. The solver's advance takes no timestep,
        so the paced dt does not reach it. */
    method DrawMe(timeOfDraw: real, advance: SwFields -> SwFields)
      returns (dt: real, warned: bool, view: seq<real>, vertexCount: nat)
      requires Valid()
      requires forall u: SwFields {:trigger advance(u)} ::
        Shaped(u, ShallowMesh.VertexCount(width, height)) ==> Shaped(advance(u), ShallowMesh.VertexCount(width, height))
      modifies this
      ensures Valid()
      ensures Pacing(dt, warned, ClockOf()) == Pace(old(ClockOf()), timeOfDraw, maxDt)
      ensures view == View(old(universe), chosenField.value, ShallowMesh.VertexCount(width, height))
      ensures vertexCount == |positions|
      ensures universe == advance(old(universe))
    {
      dt := (timeOfDraw - t) / TIMEFACTOR;
      t := timeOfDraw;
      warned := false;
      if firstDraw || dt <= 0.0 {
        firstDraw := false;
        dt := maxDt;
      } else {
        if dt >= maxDt {
          warnTime := warnTime + 1;
          if warnTime != -2 {
            warned := true;
          }
          dt := maxDt;
        }
      }
      var field := FieldOf(universe, FieldFor(chosenField.value));
      view := field[..ShallowMesh.VertexCount(width, height)];
      vertexCount := |positions|;
      universe := advance(universe);
    }

    /** A key release: "c" cycles the selector, any other key does
        nothing. */
    method KeyUp(key: string)
      requires Valid()
      modifies chosenField
      ensures Valid()
      ensures chosenField.value == if key == "c" then NextChoice(old(chosenField.value)) else old(chosenField.value)
    {
      if key == "c" {
        chosenField.Cycle();
      }
    }

    /** A click reseeds the solver at the clicked point of the unit
        square; the clock and the selector are untouched. */
    method Click(clientX: real, clientY: real, innerWidth: real, innerHeight: real,
                 seedAt: (SwFields, real, real) -> SwFields)
      requires Valid() && innerWidth > 0.0 && innerHeight > 0.0
      requires forall u: SwFields, x0: real, y0: real {:trigger seedAt(u, x0, y0)} ::
        Shaped(u, ShallowMesh.VertexCount(width, height)) ==> Shaped(seedAt(u, x0, y0), ShallowMesh.VertexCount(width, height))
      modifies this
      ensures Valid()
      ensures var p := ClickPoint(clientX, clientY, innerWidth, innerHeight);
        universe == seedAt(old(universe), p.x, p.y)
      ensures ClockOf() == old(ClockOf()) && chosenField.value == old(chosenField.value)
    {
      var mousex := clientX / innerWidth;
      var mousey := clientY / innerHeight;
      universe := seedAt(universe, mousex, 1.0 - mousey);
    }
  }
}

=== FILE: shallow_mesh.dfy ===
/** Mesh set-up of the shallow-water page: the structured grid of vertex
    coordinates, the 16-bit triangle index buffer covering it, and the
    bounding box of the coordinates that feeds the vertex shader's
    transform. All three run once, before the first frame. */
module ShallowMesh {

  // ---------------------------------------------------------------------
  // Row-major indexing
  // ---------------------------------------------------------------------

  /** a*b grows with b when a is non-negative. */
  lemma MulMonotone(a: int, b: int, c: int)
    requires a >= 0 && b <= c
    ensures a * b <= a * c
  {
    assert a * c - a * b == a * (c - b);
  }

  /** a*(b+1) is a*b + a. */
  lemma MulSucc(a: int, b: int)
    ensures a * (b + 1) == a * b + a
  {
  }

  /** Quotient and remainder are unique: those of d*q + r are q and r. */
  lemma DivModUnique(d: int, q: int, r: int)
    requires d > 0 && 0 <= r < d
    ensures (d * q + r) / d == q && (d * q + r) % d == r
  {
    var n := d * q + r;
    var q', r' := n / d, n % d;
    assert n == d * q' + r' && 0 <= r' < d;
    assert d * (q - q') == r' - r;
    if q' < q {
      MulMonotone(d, 1, q - q');
      assert false;
    } else if q < q' {
      MulMonotone(d, 1, q' - q);
      assert false;
    }
  }

  /** Sample (i, j) of a width x height grid is stored at n = width*j + i,
      inside the buffer, and n determines i and j back. */
  lemma RowMajor(width: nat, height: nat, i: nat, j: nat)
    requires i < width && j < height
    ensures width * j + i < width * height
    ensures (width * j + i) % width == i && (width * j + i) / width == j
  {
    DivModUnique(width, j, i);
    MulMonotone(width, j + 1, height);
  }

  /** Every n in [0, width*height) is the row-major index of exactly one
      in-range sample, (n % width, n / width). */
  lemma RowMajorInverse(width: nat, height: nat, n: nat)
    requires n < width * height
    ensures width > 0 && n % width < width && n / width < height
    ensures width * (n / width) + n % width == n
  {
    if width == 0 {
      assert false;
    }
    if n / width >= height {
      MulMonotone(width, height, n / width);
      assert false;
    }
  }

  // ---------------------------------------------------------------------
  // Grid coordinates
  // ---------------------------------------------------------------------

  /** x coordinate of vertex n: its column scaled to [0, 1]. */
  function XOf(width: nat, n: nat): real
    requires width >= 2
  {
    (n % width) as real / (width - 1) as real
  }

  /** y coordinate of vertex n: its row scaled to [0, 1]. */
  function YOf(width: nat, height: nat, n: nat): real
    requires width >= 2 && height >= 2
  {
    (n / width) as real / (height - 1) as real
  }

  /** The vertex stored at width*j + i sits at (i/(width-1), j/(height-1)). */
  lemma CoordinatesAtSample(width: nat, height: nat, i: nat, j: nat)
    requires width >= 2 && height >= 2 && i < width && j < height
    ensures width * j + i < width * height
    ensures XOf(width, width * j + i) == i as real / (width - 1) as real
    ensures YOf(width, height, width * j + i) == j as real / (height - 1) as real
  {
    RowMajor(width, height, i, j);
  }

  /** A ratio of a non-negative real to a real at least as large and
      positive lies in [0, 1]. */
  lemma RatioInUnit(a: real, b: real)
    requires 0.0 <= a <= b && b > 0.0
    ensures 0.0 <= a / b <= 1.0
  {
    assert (a / b) * b == a;
  }

  /** A positive real divided by itself is 1. */
  lemma RatioOfSelf(b: real)
    requires b > 0.0
    ensures b / b == 1.0
  {
    assert (b / b) * b == 1.0 * b;
  }

  /** Every coordinate lies in the unit square. */
  lemma CoordinatesInUnitSquare(width: nat, height: nat, n: nat)
    requires width >= 2 && height >= 2 && n < width * height
    ensures 0.0 <= XOf(width, n) <= 1.0 && 0.0 <= YOf(width, height, n) <= 1.0
  {
    RowMajorInverse(width, height, n);
    RatioInUnit((n % width) as real, (width - 1) as real);
    RatioInUnit((n / width) as real, (height - 1) as real);
  }

  /** The extreme samples: vertex 0 is at (0, 0), vertex width - 1 at x = 1
      and vertex width*(height - 1) at y = 1. */
  lemma CoordinateExtremes(width: nat, height: nat)
    requires width >= 2 && height >= 2
    ensures width - 1 < width * height && width * (height - 1) < width * height
    ensures XOf(width, 0) == 0.0 && YOf(width, height, 0) == 0.0
    ensures XOf(width, width - 1) == 1.0
    ensures YOf(width, height, width * (height - 1)) == 1.0
  {
    DivModUnique(width, 0, width - 1);
    DivModUnique(width, height - 1, 0);
    MulSucc(width, height - 1);
    RatioOfSelf((width - 1) as real);
    RatioOfSelf((height - 1) as real);
  }

  /** Number of vertices, and length of each coordinate buffer. */
  function VertexCount(width: nat, height: nat): nat
  {
    width * height
  }

  /** Fills the two coordinate buffers row by row: sample (i, j) is written
      at n = width*j + i and nowhere else. */
  method GridCoordinates(width: nat, height: nat) returns (x: array<real>, y: array<real>)
    requires width >= 2 && height >= 2
    ensures x.Length == VertexCount(width, height) && y.Length == VertexCount(width, height)
    ensures forall n :: 0 <= n < x.Length ==> x[n] == XOf(width, n)
    ensures forall n :: 0 <= n < y.Length ==> y[n] == YOf(width, height, n)
    ensures fresh(x) && fresh(y)
  {
    x := new real[VertexCount(width, height)];
    y := new real[VertexCount(width, height)];
    assert x.Length == Rows(width, height) by {
      RowsIsProduct(width, height);
    }
    var j := 0;
    var rowStart := 0;
    while j < height
      invariant 0 <= j <= height && rowStart == Rows(width, j)
      invariant x.Length == y.Length == Rows(width, height) && rowStart <= x.Length
      invariant forall n :: 0 <= n < rowStart ==> x[n] == XOf(width, n)
      invariant forall n :: 0 <= n < rowStart ==> y[n] == YOf(width, height, n)
    {
      RowsMonotone(width, j + 1, height);
      var i := 0;
      while i < width
        invariant 0 <= i <= width && rowStart + width <= x.Length
        invariant forall n :: 0 <= n < rowStart + i ==> x[n] == XOf(width, n)
        invariant forall n :: 0 <= n < rowStart + i ==> y[n] == YOf(width, height, n)
      {
        var n := rowStart + i;
        assert XOf(width, n) == i as real / (width - 1) as real && YOf(width, height, n) == j as real / (height - 1) as real by {
          RowsIsProduct(width, j);
          CoordinatesAtSample(width, height, i, j);
        }
        x[n] := i as real / (width - 1) as real;
        y[n] := j as real / (height - 1) as real;
        i := i + 1;
      }
      rowStart, j := rowStart + width, j + 1;
    }
  }

  // ---------------------------------------------------------------------
  // Triangle index buffer
  // ---------------------------------------------------------------------

  /** Conversion performed by a store into an Int16Array: the value modulo
      2^16, read as a signed 16-bit integer. */
  function ToInt16(v: int): (r: int)
    ensures -0x8000 <= r < 0x8000
    ensures -0x8000 <= v < 0x8000 ==> r == v
  {
    (v + 0x8000) % 0x1_0000 - 0x8000
  }

  /** How WebGL reads an index element of type UNSIGNED_SHORT. */
  function AsUint16(s: int): (r: int)
    ensures 0 <= r < 0x1_0000
  {
    s % 0x1_0000
  }

  /** The index buffer is filled as Int16 but drawn as UNSIGNED_SHORT: any
      vertex index below 2^16 survives the store and the read unchanged. */
  lemma Int16StoreReadsBackUnsigned(v: int)
    requires 0 <= v < 0x1_0000
    ensures AsUint16(ToInt16(v)) == v
  {
    if v >= 0x8000 {
      assert ToInt16(v) == v - 0x1_0000;
    }
  }

  /** The six vertex indices emitted for the cell whose lower-left vertex
      is a: triangles {a, a+1, a+width} and {a+1, a+width, a+width+1}. */
  function Quad(width: nat, a: nat): seq<nat>
  {
    [a, a + 1, a + width, a + 1, a + width, a + width + 1]
  }

  /** The number of entries in the first `rows` rows of a grid `width`
      entries wide, counted row by row. */
  function Rows(width: nat, rows: nat): nat
  {
    if rows == 0 then 0 else Rows(width, rows - 1) + width
  }

  /** Counting row by row gives the row-major offset width*rows. */
  lemma {:induction false} RowsIsProduct(width: nat, rows: nat)
    ensures Rows(width, rows) == width * rows
  {
    if rows > 0 {
      RowsIsProduct(width, rows - 1);
      MulSucc(width, rows - 1);
    }
  }

  /** More rows hold more entries. */
  lemma {:induction false} RowsMonotone(width: nat, j: nat, k: nat)
    requires j <= k
    ensures Rows(width, j) <= Rows(width, k)
  {
    if j < k {
      RowsMonotone(width, j, k - 1);
    }
  }

  /** The six vertex indices emitted for cell (i, j), whose lower-left
      corner is vertex width*j + i: triangles {(i,j), (i+1,j), (i,j+1)} and
      {(i+1,j), (i,j+1), (i+1,j+1)}. */
  function CellTriangles(width: nat, i: nat, j: nat): seq<nat>
  {
    Quad(width, Rows(width, j) + i)
  }

  /** The position of cell (i, j) in the order the triangulation loop
      visits cells: (width - 1)*j + i. */
  function CellNumber(width: nat, i: nat, j: nat): nat
    requires width >= 1
  {
    Rows(width - 1, j) + i
  }

  /** The two triangles of a cell together use exactly the cell's four
      corners, each triangle has three distinct corners, and they share the
      anti-diagonal edge (i+1,j)-(i,j+1). */
  lemma CellCoversQuad(width: nat, height: nat, i: nat, j: nat)
    requires width >= 2 && i < width - 1 && j < height - 1
    ensures var t := CellTriangles(width, i, j);
      && t[0] == width * j + i && t[5] == width * (j + 1) + i + 1
      && {t[0], t[1], t[2], t[3], t[4], t[5]}
         == {width * j + i, width * j + i + 1, width * (j + 1) + i, width * (j + 1) + i + 1}
      && t[0] != t[1] && t[0] != t[2] && t[1] != t[2]
      && t[3] != t[4] && t[3] != t[5] && t[4] != t[5]
      && t[1] == t[3] && t[2] == t[4]
  {
    RowsIsProduct(width, j);
    MulSucc(width, j);
  }

  /** Number of index slots for a width x height grid: two triangles of
      three vertices per cell. */
  function IndexCount(width: nat, height: nat): nat
    requires width >= 1 && height >= 1
  {
    (width - 1) * (height - 1) * 2 * 3
  }

  /** The indices of the first `cols` cells of the row whose first vertex
      is `row`, left to right. */
  function RowIndices(width: nat, row: nat, cols: nat): (r: seq<nat>)
    ensures |r| == 6 * cols
  {
    if cols == 0 then [] else RowIndices(width, row, cols - 1) + Quad(width, row + cols - 1)
  }

  /** The indices of the first `rows` rows of cells, in the order the
      triangulation loop visits them. */
  function MeshIndices(width: nat, rows: nat): (r: seq<nat>)
    requires width >= 1
  {
    if rows == 0 then [] else MeshIndices(width, rows - 1) + RowIndices(width, Rows(width, rows - 1), width - 1)
  }

  /** Slot 6*i + k of a row's indices is vertex k of the row's i-th cell. */
  lemma {:induction false} RowSlot(width: nat, row: nat, cols: nat, i: nat, k: nat)
    requires i < cols && k < 6
    ensures RowIndices(width, row, cols)[6 * i + k] == Quad(width, row + i)[k]
  {
    if i < cols - 1 {
      RowSlot(width, row, cols - 1, i, k);
    }
  }

  /** The first `rows` rows fill six slots per cell. */
  lemma {:induction false} MeshLength(width: nat, rows: nat)
    requires width >= 1
    ensures |MeshIndices(width, rows)| == 6 * Rows(width - 1, rows)
  {
    if rows > 0 {
      MeshLength(width, rows - 1);
    }
  }

  /** The mesh of fewer rows is a prefix of the mesh of more rows. */
  lemma {:induction false} MeshPrefix(width: nat, r1: nat, r2: nat)
    requires width >= 1 && r1 <= r2
    ensures MeshIndices(width, r1) <= MeshIndices(width, r2)
    decreases r2
  {
    if r1 < r2 {
      MeshPrefix(width, r1, r2 - 1);
    }
  }

  /** The last row of a mesh holds each of its cells at the cell's slots. */
  lemma LastRowSlot(width: nat, i: nat, j: nat, k: nat)
    requires width >= 2 && i < width - 1 && k < 6
    ensures 6 * CellNumber(width, i, j) + k < |MeshIndices(width, j + 1)|
    ensures MeshIndices(width, j + 1)[6 * CellNumber(width, i, j) + k] == CellTriangles(width, i, j)[k]
  {
    MeshLength(width, j);
    RowSlot(width, Rows(width, j), width - 1, i, k);
  }

  /** Cell (i, j), the c-th cell in visiting order, owns slots 6c + k,
      k < 6, of the mesh of any number of rows beyond j, and each holds
      vertex k of the cell. */
  lemma MeshSlot(width: nat, rows: nat, i: nat, j: nat, k: nat)
    requires width >= 2 && i < width - 1 && j < rows && k < 6
    ensures 6 * CellNumber(width, i, j) + k < |MeshIndices(width, rows)|
    ensures MeshIndices(width, rows)[6 * CellNumber(width, i, j) + k] == CellTriangles(width, i, j)[k]
  {
    LastRowSlot(width, i, j, k);
    MeshPrefix(width, j + 1, rows);
  }

  /** The buffer has six slots for each cell of the grid's height - 1
      rows of width - 1 cells. */
  lemma IndexCountRows(width: nat, height: nat)
    requires width >= 1 && height >= 1
    ensures IndexCount(width, height) == 6 * Rows(width - 1, height - 1)
  {
    RowsIsProduct(width - 1, height - 1);
  }

  /** Cell (i, j) of a width x height grid owns slots 6c + k, k < 6, of the
      full mesh, where c is its number in visiting order; each is inside the
      buffer and holds the cell's k-th vertex. */
  lemma SlotOfCell(width: nat, height: nat, i: nat, j: nat, k: nat)
    requires width >= 2 && height >= 2 && i < width - 1 && j < height - 1 && k < 6
    ensures 6 * CellNumber(width, i, j) + k < IndexCount(width, height) == |MeshIndices(width, height - 1)|
    ensures MeshIndices(width, height - 1)[6 * CellNumber(width, i, j) + k] == CellTriangles(width, i, j)[k]
  {
    assert IndexCount(width, height) == |MeshIndices(width, height - 1)| by {
      MeshLength(width, height - 1);
      IndexCountRows(width, height);
    }
    MeshSlot(width, height - 1, i, j, k);
  }

  /** Cell numbers are the row-major offsets (width - 1)*j + i. */
  lemma CellNumberIsProduct(width: nat, i: nat, j: nat)
    requires width >= 1
    ensures CellNumber(width, i, j) == (width - 1) * j + i
  {
    RowsIsProduct(width - 1, j);
  }

  /** Distinct cells write disjoint slots. */
  lemma SlotsDisjoint(width: nat, height: nat, i1: nat, j1: nat, k1: nat, i2: nat, j2: nat, k2: nat)
    requires width >= 2 && height >= 2
    requires i1 < width - 1 && j1 < height - 1 && k1 < 6
    requires i2 < width - 1 && j2 < height - 1 && k2 < 6
    requires (i1, j1) != (i2, j2)
    ensures 6 * CellNumber(width, i1, j1) + k1 != 6 * CellNumber(width, i2, j2) + k2
  {
    var c1, c2 := CellNumber(width, i1, j1), CellNumber(width, i2, j2);
    CellNumberIsProduct(width, i1, j1);
    CellNumberIsProduct(width, i2, j2);
    RowMajor(width - 1, height - 1, i1, j1);
    RowMajor(width - 1, height - 1, i2, j2);
    DivModUnique(6, c1, k1);
    DivModUnique(6, c2, k2);
  }

  /** Every vertex index of an in-range cell is below width*height. */
  lemma CellInRange(width: nat, height: nat, i: nat, j: nat, k: nat)
    requires width >= 2 && height >= 2 && i < width - 1 && j < height - 1 && k < 6
    ensures CellTriangles(width, i, j)[k] < VertexCount(width, height)
  {
    RowsMonotone(width, j + 2, height);
    RowsIsProduct(width, height);
  }

  /** Slot m belongs to cell c = m / 6, which is cell (c % (width - 1),
      c / (width - 1)) of the grid. */
  lemma CellOfSlot(width: nat, height: nat, m: nat) returns (i: nat, j: nat, k: nat)
    requires width >= 2 && height >= 2 && m < IndexCount(width, height)
    ensures i < width - 1 && j < height - 1 && k < 6
    ensures m == 6 * CellNumber(width, i, j) + k
  {
    var c := m / 6;
    k := m % 6;
    RowMajorInverse(6, (width - 1) * (height - 1), m);
    RowMajorInverse(width - 1, height - 1, c);
    i, j := c % (width - 1), c / (width - 1);
    CellNumberIsProduct(width, i, j);
  }

  /** Every slot of the full mesh holds a valid vertex index, below
      width*height. */
  lemma MeshInRange(width: nat, height: nat, m: nat)
    requires width >= 2 && height >= 2 && m < IndexCount(width, height)
    ensures m < |MeshIndices(width, height - 1)|
    ensures MeshIndices(width, height - 1)[m] < VertexCount(width, height)
  {
    var i, j, k := CellOfSlot(width, height, m);
    SlotOfCell(width, height, i, j, k);
    CellInRange(width, height, i, j, k);
  }

  /** The contents of an Int16Array after storing each value of s. */
  function Int16Seq(s: seq<int>): (r: seq<int>)
    ensures |r| == |s|
  {
    seq(|s|, k requires 0 <= k < |s| => ToInt16(s[k]))
  }

  lemma Int16SeqAppend(s: seq<int>, t: seq<int>)
    ensures Int16Seq(s + t) == Int16Seq(s) + Int16Seq(t)
  {
  }

  /** The row's first i + 1 cells are its first i cells and then cell i. */
  lemma {:induction false} RowIndicesStep(stored: seq<nat>, width: nat, row: nat, i: nat)
    ensures Int16Seq(stored + RowIndices(width, row, i)) + Int16Seq(Quad(width, row + i))
         == Int16Seq(stored + RowIndices(width, row, i + 1))
  {
    Int16SeqAppend(stored + RowIndices(width, row, i), Quad(width, row + i));
    assert stored + RowIndices(width, row, i) + Quad(width, row + i) == stored + RowIndices(width, row, i + 1);
  }

  /** The six stores of one cell whose lower-left vertex is a: slots
      n .. n+5 receive its two triangles, every other slot is left alone. */
  method StoreCell(positions: array<int>, n: nat, width: nat, a: nat)
    requires n + 6 <= positions.Length
    modifies positions
    ensures positions[..n] == old(positions[..n])
    ensures positions[n..n + 6] == Int16Seq(Quad(width, a))
    ensures positions[n + 6..] == old(positions[n + 6..])
  {
    positions[n + 0] := ToInt16(a);
    positions[n + 1] := ToInt16(a + 1);
    positions[n + 2] := ToInt16(a + width);
    positions[n + 3] := ToInt16(a + 1);
    positions[n + 4] := ToInt16(a + width);
    positions[n + 5] := ToInt16(a + width + 1);
  }

  /** One iteration of the triangulation loop: cell (i, j), the c-th cell
      in visiting order, stores its six vertex indices in slots 6c .. 6c+5,
      right after the c cells already stored, which it leaves alone. */
  method FillCell(positions: array<int>, width: nat, i: nat, j: nat, ghost row: nat, ghost rowCell: nat, ghost stored: seq<nat>)
    requires width >= 2 && row == Rows(width, j) && rowCell == Rows(width - 1, j)
    requires 6 * (rowCell + i) + 6 <= positions.Length
    requires positions[..6 * (rowCell + i)] == Int16Seq(stored + RowIndices(width, row, i))
    modifies positions
    ensures positions[..6 * (rowCell + i + 1)] == Int16Seq(stored + RowIndices(width, row, i + 1))
    ensures positions[6 * (rowCell + i + 1)..] == old(positions[6 * (rowCell + i + 1)..])
  {
    var n := 2 * 3 * ((width - 1) * j + i);
    assert n == 6 * (rowCell + i) && width * j + i == row + i by {
      RowsIsProduct(width, j);
      RowsIsProduct(width - 1, j);
    }
    ghost var before := positions[..n];
    StoreCell(positions, n, width, width * j + i);
    assert positions[..n + 6] == before + Int16Seq(Quad(width, row + i)) by {
      assert positions[..n + 6] == positions[..n] + positions[n..n + 6];
    }
    RowIndicesStep(stored, width, row, i);
  }

  /** The inner triangulation loop: fills the cells of row j, left to
      right, after the rows already stored. */
  method FillRow(positions: array<int>, width: nat, j: nat, ghost row: nat, ghost rowCell: nat, ghost stored: seq<nat>)
    requires width >= 2 && row == Rows(width, j) && rowCell == Rows(width - 1, j)
    requires 6 * (rowCell + width - 1) <= positions.Length
    requires positions[..6 * rowCell] == Int16Seq(stored)
    modifies positions
    ensures positions[..6 * (rowCell + width - 1)] == Int16Seq(stored + RowIndices(width, row, width - 1))
    ensures positions[6 * (rowCell + width - 1)..] == old(positions[6 * (rowCell + width - 1)..])
  {
    var i := 0;
    assert stored + RowIndices(width, row, 0) == stored;
    while i < width - 1
      invariant 0 <= i <= width - 1
      invariant positions[..6 * (rowCell + i)] == Int16Seq(stored + RowIndices(width, row, i))
      invariant positions[6 * (rowCell + width - 1)..] == old(positions[6 * (rowCell + width - 1)..])
    {
      ghost var tail := positions[6 * (rowCell + i + 1)..];
      FillCell(positions, width, i, j, row, rowCell, stored);
      assert positions[6 * (rowCell + width - 1)..] == old(positions[6 * (rowCell + width - 1)..]) by {
        assert positions[6 * (rowCell + i + 1)..] == tail;
        assert positions[6 * (rowCell + width - 1)..] == tail[6 * (width - 2 - i)..];
      }
      i := i + 1;
    }
  }

  /** Fills the Int16 index buffer cell by cell, row by row. */
  method Triangulate(width: nat, height: nat) returns (positions: array<int>)
    requires width >= 2 && height >= 2
    ensures positions.Length == IndexCount(width, height)
    ensures positions[..] == Int16Seq(MeshIndices(width, height - 1))
    ensures fresh(positions)
  {
    positions := new int[IndexCount(width, height)];
    ghost var cells := Rows(width - 1, height - 1);
    assert positions.Length == 6 * cells by {
      IndexCountRows(width, height);
    }
    var j := 0;
    ghost var row := 0;      // first vertex of row j
    ghost var rowCell := 0;  // cells before row j
    while j < height - 1
      invariant 0 <= j <= height - 1 && row == Rows(width, j) && rowCell == Rows(width - 1, j)
      invariant positions.Length == 6 * cells && rowCell <= cells
      invariant positions[..6 * rowCell] == Int16Seq(MeshIndices(width, j))
    {
      RowsMonotone(width - 1, j + 1, height - 1);
      FillRow(positions, width, j, row, rowCell, MeshIndices(width, j));
      assert positions[..6 * (rowCell + (width - 1))] == Int16Seq(MeshIndices(width, j + 1));
      j, row, rowCell := j + 1, row + width, rowCell + (width - 1);
    }
    assert positions[..] == positions[..6 * rowCell];
  }

  /** When the grid has at most 2^15 vertices the Int16 store is lossless:
      every slot of the buffer holds its vertex index itself. */
  lemma IndicesFitInt16(width: nat, height: nat, m: nat)
    requires width >= 2 && height >= 2 && VertexCount(width, height) <= 0x8000
    requires m < IndexCount(width, height)
    ensures m < |MeshIndices(width, height - 1)|
    ensures var v := MeshIndices(width, height - 1)[m]; ToInt16(v) == v < VertexCount(width, height)
  {
    MeshInRange(width, height, m);
  }

  // ---------------------------------------------------------------------
  // Bounding box
  // ---------------------------------------------------------------------

  /** A JavaScript number as far as Math.min / Math.max over finite samples
      are concerned: -Infinity, a finite value, or +Infinity. */
  datatype Bound = NegInf | Finite(value: real) | PosInf

  /** Math.min(a, v) for a finite sample v. */
  function MinWith(a: Bound, v: real): Bound
  {
    match a
    case NegInf => NegInf
    case Finite(u) => Finite(if u <= v then u else v)
    case PosInf => Finite(v)
  }

  /** Math.max(a, v) for a finite sample v. */
  function MaxWith(a: Bound, v: real): Bound
  {
    match a
    case NegInf => Finite(v)
    case Finite(u) => Finite(if u >= v then u else v)
    case PosInf => PosInf
  }

  /** b is the least of s[0..n]: a lower bound that some sample attains. */
  ghost predicate IsLeast(b: real, s: seq<real>, n: nat)
    requires n <= |s|
  {
    (forall k :: 0 <= k < n ==> b <= s[k]) && (exists k :: 0 <= k < n && s[k] == b)
  }

  /** b is the greatest of s[0..n]: an upper bound that some sample attains. */
  ghost predicate IsGreatest(b: real, s: seq<real>, n: nat)
    requires n <= |s|
  {
    (forall k :: 0 <= k < n ==> s[k] <= b) && (exists k :: 0 <= k < n && s[k] == b)
  }

  /** A running Math.min over s[0..n]: +Infinity over no samples, the
      least sample otherwise. */
  ghost predicate LeastSoFar(b: Bound, s: seq<real>, n: nat)
    requires n <= |s|
  {
    (n == 0 ==> b == PosInf) && (n > 0 ==> b.Finite? && IsLeast(b.value, s, n))
  }

  /** A running Math.max over s[0..n]: -Infinity over no samples, the
      greatest sample otherwise. */
  ghost predicate GreatestSoFar(b: Bound, s: seq<real>, n: nat)
    requires n <= |s|
  {
    (n == 0 ==> b == NegInf) && (n > 0 ==> b.Finite? && IsGreatest(b.value, s, n))
  }

  /** bbox is [min x, max x, min y, max y] over the first n samples; over
      no samples it is still [+Inf, -Inf, +Inf, -Inf]. */
  ghost predicate IsBoundingBox(bbox: seq<Bound>, xs: seq<real>, ys: seq<real>, n: nat)
    requires n <= |xs| && n <= |ys|
  {
    |bbox| == 4 &&
    LeastSoFar(bbox[0], xs, n) && GreatestSoFar(bbox[1], xs, n) &&
    LeastSoFar(bbox[2], ys, n) && GreatestSoFar(bbox[3], ys, n)
  }

  /** Math.min with the next sample extends a running minimum by one. */
  lemma MinWithStep(b: Bound, s: seq<real>, n: nat)
    requires n < |s| && LeastSoFar(b, s, n)
    ensures LeastSoFar(MinWith(b, s[n]), s, n + 1)
  {
    if n > 0 {
      var k :| 0 <= k < n && s[k] == b.value;
      if b.value <= s[n] {
        assert s[k] == MinWith(b, s[n]).value;
      }
    }
  }

  /** Math.max with the next sample extends a running maximum by one. */
  lemma MaxWithStep(b: Bound, s: seq<real>, n: nat)
    requires n < |s| && GreatestSoFar(b, s, n)
    ensures GreatestSoFar(MaxWith(b, s[n]), s, n + 1)
  {
    if n > 0 {
      var k :| 0 <= k < n && s[k] == b.value;
      if b.value >= s[n] {
        assert s[k] == MaxWith(b, s[n]).value;
      }
    }
  }

  /** Folds Math.min / Math.max over every vertex, starting from the
      infinities. */
  method BoundingBox(width: nat, height: nat, x: array<real>, y: array<real>) returns (bbox: array<Bound>)
    requires x.Length == VertexCount(width, height) && y.Length == VertexCount(width, height)
    ensures IsBoundingBox(bbox[..], x[..], y[..], VertexCount(width, height))
    ensures fresh(bbox)
  {
    bbox := new Bound[4] [PosInf, NegInf, PosInf, NegInf];
    ghost var xs, ys := x[..], y[..];
    var i := 0;
    while i < VertexCount(width, height)
      invariant 0 <= i <= VertexCount(width, height)
      invariant x[..] == xs && y[..] == ys
      invariant IsBoundingBox(bbox[..], xs, ys, i)
    {
      ghost var before := bbox[..];
      bbox[0] := MinWith(bbox[0], x[i]);
      bbox[1] := MaxWith(bbox[1], x[i]);
      bbox[2] := MinWith(bbox[2], y[i]);
      bbox[3] := MaxWith(bbox[3], y[i]);
      MinWithStep(before[0], xs, i);
      MaxWithStep(before[1], xs, i);
      MinWithStep(before[2], ys, i);
      MaxWithStep(before[3], ys, i);
      assert bbox[..] == [MinWith(before[0], xs[i]), MaxWith(before[1], xs[i]),
                          MinWith(before[2], ys[i]), MaxWith(before[3], ys[i])];
      i := i + 1;
    }
  }

  /** The least element, when it exists, is unique. */
  lemma LeastUnique(a: real, b: real, s: seq<real>, n: nat)
    requires n <= |s| && IsLeast(a, s, n) && IsLeast(b, s, n)
    ensures a == b
  {
    var ka :| 0 <= ka < n && s[ka] == a;
    var kb :| 0 <= kb < n && s[kb] == b;
    assert a <= s[kb] && b <= s[ka];
  }

  /** The greatest element, when it exists, is unique. */
  lemma GreatestUnique(a: real, b: real, s: seq<real>, n: nat)
    requires n <= |s| && IsGreatest(a, s, n) && IsGreatest(b, s, n)
    ensures a == b
  {
    var ka :| 0 <= ka < n && s[ka] == a;
    var kb :| 0 <= kb < n && s[kb] == b;
    assert s[kb] <= a && s[ka] <= b;
  }

  /** For the generated grid the bounding box is the unit square
      [0, 1] x [0, 1], so the shader's scale factors 1/(bbox[1] - bbox[0])
      and 1/(bbox[3] - bbox[2]) are both 1 and never divide by zero. */
  lemma GridBoundingBox(width: nat, height: nat, xs: seq<real>, ys: seq<real>, bbox: seq<Bound>)
    requires width >= 2 && height >= 2
    requires |xs| == VertexCount(width, height) && |ys| == VertexCount(width, height)
    requires forall n :: 0 <= n < |xs| ==> xs[n] == XOf(width, n)
    requires forall n :: 0 <= n < |ys| ==> ys[n] == YOf(width, height, n)
    requires IsBoundingBox(bbox, xs, ys, VertexCount(width, height))
    ensures bbox == [Finite(0.0), Finite(1.0), Finite(0.0), Finite(1.0)]
  {
    var count := width * height;
    CoordinateExtremes(width, height);
    forall n | 0 <= n < count
      ensures 0.0 <= xs[n] <= 1.0 && 0.0 <= ys[n] <= 1.0
    {
      CoordinatesInUnitSquare(width, height, n);
    }
    assert xs[0] == 0.0 && xs[width - 1] == 1.0;
    assert ys[0] == 0.0 && ys[width * (height - 1)] == 1.0;
    assert IsLeast(0.0, xs, count);
    assert IsGreatest(1.0, xs, count);
    assert IsLeast(0.0, ys, count);
    assert IsGreatest(1.0, ys, count);
    LeastUnique(bbox[0].value, 0.0, xs, count);
    GreatestUnique(bbox[1].value, 1.0, xs, count);
    LeastUnique(bbox[2].value, 0.0, ys, count);
    GreatestUnique(bbox[3].value, 1.0, ys, count);
  }

  /** The uBbox uniform: offset and inverse extent per axis. */
  datatype BboxUniform = BboxUniform(x0: real, xScale: real, y0: real, yScale: real)

  function UniformOf(bbox: seq<Bound>): (u: BboxUniform)
    requires |bbox| == 4 && bbox[0].Finite? && bbox[1].Finite? && bbox[2].Finite? && bbox[3].Finite?
    requires bbox[1].value > bbox[0].value && bbox[3].value > bbox[2].value
    ensures u.xScale > 0.0 && u.yScale > 0.0
  {
    BboxUniform(bbox[0].value, 1.0 / (bbox[1].value - bbox[0].value),
                bbox[2].value, 1.0 / (bbox[3].value - bbox[2].value))
  }

  /** With the uniform computed from a bounding box, the shader's
      (aX - uBbox.x)*uBbox.y and (aY - uBbox.z)*uBbox.w map every sample
      inside the box to [0, 1], the box's low edges to 0 and its high
      edges to 1. */
  lemma UniformNormalises(bbox: seq<Bound>, v: real, w: real)
    requires |bbox| == 4 && bbox[0].Finite? && bbox[1].Finite? && bbox[2].Finite? && bbox[3].Finite?
    requires bbox[1].value > bbox[0].value && bbox[3].value > bbox[2].value
    requires bbox[0].value <= v <= bbox[1].value && bbox[2].value <= w <= bbox[3].value
    ensures var u := UniformOf(bbox); 0.0 <= (v - u.x0) * u.xScale <= 1.0
    ensures var u := UniformOf(bbox); 0.0 <= (w - u.y0) * u.yScale <= 1.0
    ensures var u := UniformOf(bbox); (bbox[0].value - u.x0) * u.xScale == 0.0 && (bbox[1].value - u.x0) * u.xScale == 1.0
    ensures var u := UniformOf(bbox); (bbox[2].value - u.y0) * u.yScale == 0.0 && (bbox[3].value - u.y0) * u.yScale == 1.0
  {
    UnitInterval(bbox[0].value, bbox[1].value, v);
    UnitInterval(bbox[2].value, bbox[3].value, w);
  }

  /** One axis of the normalisation: [lo, hi] onto [0, 1]. */
  lemma UnitInterval(lo: real, hi: real, v: real)
    requires lo < hi && lo <= v <= hi
    ensures 0.0 <= (v - lo) * (1.0 / (hi - lo)) <= 1.0
    ensures (hi - lo) * (1.0 / (hi - lo)) == 1.0
  {
    var s := 1.0 / (hi - lo);
    assert (hi - lo) * s == 1.0;
    assert s > 0.0 && v - lo >= 0.0;
    assert 0.0 <= (v - lo) * s;
    assert (v - lo) * s <= (hi - lo) * s;
  }
}

=== FILE: wasm_universe.dfy ===
/** The Universe object the solver exports to JavaScript: two System
    slots, a work-buffer set and a grid. The current state always lives in
    slot 0; advance computes the next state into slot 1 and swaps the
    slots, so no field data is ever copied. The numerical kernels (grid
    construction, System::new, the Gaussian initial condition and the
    time step itself) are parameters of the model. */
module WasmUniverse {

  datatype Option<T> = None | Some(value: T)

  /** Rust's u32. */
  newtype U32 = x: int | 0 <= x < 0x1_0000_0000

  const U32_MODULUS: int := 0x1_0000_0000

  /** width * height on u32 operands as a release build evaluates it: the
      product reduced modulo 2^32. */
  function MulWrapping(a: U32, b: U32): (r: U32)
    ensures a as int * b as int < U32_MODULUS ==> r as int == a as int * b as int
    ensures (a as int * b as int - r as int) % U32_MODULUS == 0
  {
    var p := a as int * b as int;
    assert 0 <= p;
    assert p % U32_MODULUS < U32_MODULUS;
    (p % U32_MODULUS) as U32
  }

  /** The two assertions at the top of new: each coordinate buffer holds
      (width * height) as usize elements, the product taken in u32. */
  predicate SizesAccepted(width: U32, height: U32, xLen: nat, yLen: nat)
  {
    MulWrapping(width, height) as int == xLen && MulWrapping(width, height) as int == yLen
  }

  /** Without overflow the assertions demand exactly width * height
      samples per buffer. */
  lemma SizesAcceptedExactly(width: U32, height: U32, xLen: nat, yLen: nat)
    requires width as int * height as int < U32_MODULUS
    ensures SizesAccepted(width, height, xLen, yLen) <==>
      xLen == width as int * height as int && yLen == width as int * height as int
  {
  }

  /** With overflow they compare against the wrapped product: a
      65536 by 65536 grid passes with empty buffers, and a 65536 by 65537
      grid with 65536 samples. */
  lemma OverflowingSizesWrap()
    ensures SizesAccepted(0x1_0000, 0x1_0000, 0, 0)
    ensures SizesAccepted(0x1_0000, 0x1_0001, 0x1_0000, 0x1_0000)
  {
    assert 0x1_0000 * 0x1_0000 == U32_MODULUS;
    assert 0x1_0000 * 0x1_0001 == U32_MODULUS + 0x1_0000;
  }

  // ---------------------------------------------------------------------
  // Slot pairs
  // ---------------------------------------------------------------------

  /** A pair with its two slots exchanged. */
  function Swapped<T>(pair: (T, T)): (r: (T, T))
    ensures r.0 == pair.1 && r.1 == pair.0
  {
    (pair.1, pair.0)
  }

  /** Exchanging twice restores the pair, and an exchange changes the pair
      exactly when its two slots hold different occupants. */
  lemma SwapInvolution<T>(pair: (T, T))
    ensures Swapped(Swapped(pair)) == pair
    ensures Swapped(pair) == pair <==> pair.0 == pair.1
  {
  }

  /** The pair after n exchanges. */
  function SwappedN<T>(pair: (T, T), n: nat): (T, T)
  {
    if n == 0 then pair else Swapped(SwappedN(pair, n - 1))
  }

  /** Exchanging is an involution: after an even number of exchanges the
      pair is back in its original order, after an odd number it is
      reversed. */
  lemma {:induction false} SwappedParity<T>(pair: (T, T), n: nat)
    ensures SwappedN(pair, n) == if n % 2 == 0 then pair else Swapped(pair)
  {
    if n > 0 {
      SwappedParity(pair, n - 1);
    }
  }

  // ---------------------------------------------------------------------
  // Solver state
  // ---------------------------------------------------------------------

  /** The three field components of one Maxwell state. */
  datatype Fields = Fields(ex: seq<real>, ey: seq<real>, hz: seq<real>)

  datatype FieldName = Ex | Ey | Hz

  /** The grid the solver runs on, as Grid::new builds it. */
  datatype Grid = Grid(width: U32, height: U32, x: seq<real>, y: seq<real>)

  /** One simulation state; its fields are overwritten in place. */
  class System {
    const width: U32
    const height: U32
    var fields: Fields

    constructor (width: U32, height: U32, fields: Fields)
      ensures this.width == width && this.height == height && this.fields == fields
    {
      this.width, this.height, this.fields := width, height, fields;
    }

    /** The samples a pointer to one of this state's fields addresses. */
    function Field(name: FieldName): seq<real>
      reads this
    {
      match name
      case Ex => fields.ex
      case Ey => fields.ey
      case Hz => fields.hz
    }
  }

  /** Scratch storage for the time stepper; its contents are not part of
      any state the model tracks. */
  class WorkBuffers {
    const width: nat
    const height: nat

    constructor (width: nat, height: nat)
      ensures this.width == width && this.height == height
    {
      this.width, this.height := width, height;
    }
  }

  /** A raw field pointer handed to JavaScript: the state it points into
      and which of its fields. */
  datatype Ptr = Ptr(owner: System, name: FieldName)

  class Universe {
    var sys0: System
    var sys1: System
    const wb: WorkBuffers
    const grid: Grid
    /** The two System objects as new created them, and how many times
        they have been exchanged since. */
    ghost const first: System
    ghost const second: System
    ghost var swaps: nat

    ghost predicate Valid()
      reads this
    {
      first != second && sys0 != sys1 && (sys0, sys1) == SwappedN((first, second), swaps)
    }

    constructor (width: U32, height: U32, grid: Grid, state0: Fields, state1: Fields)
      ensures Valid() && swaps == 0
      ensures this.grid == grid && sys0.fields == state0 && sys1.fields == state1
      ensures sys0.width == sys1.width == width && sys0.height == sys1.height == height
      ensures wb.width == width as int && wb.height == height as int
      ensures fresh(sys0) && fresh(sys1) && fresh(wb)
    {
      var s0 := new System(width, height, state0);
      var s1 := new System(width, height, state1);
      sys0, sys1 := s0, s1;
      first, second := s0, s1;
      swaps := 0;
      this.grid := grid;
      wb := new WorkBuffers(width as nat, height as nat);
    }

    /** new: checks both buffer lengths against width * height (as u32),
        builds the grid (whose failure is the expect), then two states of
        the same size and one work-buffer set. None stands for the panic. */
    static method New(width: U32, height: U32, x: seq<real>, y: seq<real>,
                      makeGrid: (U32, U32, seq<real>, seq<real>) -> Option<Grid>,
                      blank: (U32, U32) -> Fields)
      returns (r: Option<Universe>)
      ensures r.Some? <==> SizesAccepted(width, height, |x|, |y|) && makeGrid(width, height, x, y).Some?
      ensures r.Some? ==>
        var u := r.value;
        fresh(u) && fresh(u.sys0) && fresh(u.sys1) && fresh(u.wb) &&
        u.Valid() && u.swaps == 0 &&
        u.grid == makeGrid(width, height, x, y).value &&
        u.sys0.fields == blank(width, height) && u.sys1.fields == blank(width, height) &&
        u.sys0.width == u.sys1.width == width && u.sys0.height == u.sys1.height == height &&
        u.wb.width == width as int && u.wb.height == height as int
    {
      if MulWrapping(width, height) as int != |x| || MulWrapping(width, height) as int != |y| {
        return None;
      }
      var grid := makeGrid(width, height, x, y);
      if grid.None? {
        return None;
      }
      var u := new Universe(width, height, grid.value, blank(width, height), blank(width, height));
      r := Some(u);
    }

    /** init: sets the current state to a Gaussian pulse at (x0, y0); the
        other slot, the grid and the work buffers are untouched. */
    method Init(x0: real, y0: real, gaussian: (Fields, real, real) -> Fields)
      requires Valid()
      modifies sys0
      ensures Valid()
      ensures sys0.fields == gaussian(old(sys0.fields), x0, y0)
      ensures sys1.fields == old(sys1.fields)
    {
      sys0.fields := gaussian(sys0.fields, x0, y0);
    }

    /** advance: one time step of length dt from slot 0 into slot 1, then
        the slots are exchanged. Afterwards slot 0 holds the new state and
        slot 1 the previous one, both the same objects as before. */
    method Advance(dt: real, step: (Fields, real, Grid) -> Fields)
      requires Valid()
      modifies this, sys1
      ensures Valid() && swaps == old(swaps) + 1
      ensures sys0 == old(sys1) && sys1 == old(sys0)
      ensures sys0.fields == step(old(sys0.fields), dt, grid)
      ensures sys1.fields == old(sys0.fields)
    {
      sys1.fields := step(sys0.fields, dt, grid);
      sys0, sys1 := sys1, sys0;
      swaps := swaps + 1;
    }

    /** get_ex_ptr: the current state's ex field. */
    method GetExPtr() returns (p: Ptr)
      requires Valid()
      ensures p.owner == sys0 && p.owner != sys1
      ensures p.owner.Field(p.name) == sys0.fields.ex
      ensures p == Ptr(sys0, Ex)
    {
      p := Ptr(sys0, Ex);
    }

    /** get_ey_ptr: the current state's ey field. */
    method GetEyPtr() returns (p: Ptr)
      requires Valid()
      ensures p.owner == sys0 && p.owner != sys1
      ensures p.owner.Field(p.name) == sys0.fields.ey
      ensures p == Ptr(sys0, Ey)
    {
      p := Ptr(sys0, Ey);
    }

    /** get_hz_ptr: the current state's hz field. */
    method GetHzPtr() returns (p: Ptr)
      requires Valid()
      ensures p.owner == sys0 && p.owner != sys1
      ensures p.owner.Field(p.name) == sys0.fields.hz
      ensures p == Ptr(sys0, Hz)
    {
      p := Ptr(sys0, Hz);
    }
  }
}
